=== FILE: README.md ===
# Antiplagiat submission store and duplicate rule, in Dafny

This project models the two controllers at the heart of the Antiplagiat
services as pure state transitions.

- **File storage** (`FileStorage`, in `file_storage.dfy`): the store is a map
  from file id to `FileMetadata` plus a disk, a map from path to bytes.
  `Upload` rejects a missing or empty file. Otherwise it writes the bytes
  under a new id and offers the metadata to `TryAdd`. `GetFile` and `GetMeta`
  are lookups. `GetFile` tells apart an unknown id ("File not found") from
  metadata whose bytes are gone ("File on disk missing").
- **Analysis** (`Analysis`, in `analysis.dfy`): the service keeps a bag of
  `AnalysisReport`s. `Analyze` fetches the file's metadata and bytes and
  hashes the bytes. It sets `IsPlagiarism` iff some report already in the bag
  has the same task, the same hash and a different student. It then adds
  exactly one report. `GetReports` lists the reports of one task.
- **Pipeline** (`Pipeline`, in `pipeline.dfy`): the analysis's two fetches
  are answered by the storage model's `GetMeta` and `GetFile`. This lets the
  end-to-end scenarios be stated: upload then analyse, Alice then Bob,
  resubmission, and different tasks.

`primitives.dfy` holds `Option`/`Result` and the value types. `Byte` is an
octet. `Guid` is a natural number, because ids are only compared and freshly
chosen. `Instant` is an opaque clock reading.

Abstractions:
- The MD5/Base64 hash is an arbitrary function `md5: seq<Byte> -> string`.
  It is deterministic, and nothing else is assumed about it.
- `Guid.NewGuid` becomes an `id` parameter of `UploadWith`. Each lemma states
  what it needs of that id. Most need it fresh. `UploadPreservesWellformed`
  needs nothing. `CollidingUploadOverwrites` covers an id already in use. The
  `Upload` method picks one admissible fresh id, namely one past the largest
  in use.
- The clock, the report id and the word-cloud link are parameters.
- An HTTP fetch is `Fetched(value)`, `ErrorStatus` (a non-success status) or
  `Unreachable` (`HttpRequestException`, answered with 503).
- The report bag is a `multiset`. `ConcurrentBag` is unordered, so
  `GetReports` promises multiplicities and no order.

Behaviour of the code that a reader might not expect (the model follows the code):
- The code compares the new file against earlier analysis **reports**, not
  against all stored files. A stored file that was never analysed is never
  matched. So the verdict depends on the order of analysis, and the
  comparison is not symmetric. `Analysis.SecondOfTwoIsFlagged`,
  `Pipeline.VerdictIgnoresOtherFiles` and
  `Pipeline.EarlierUploaderCanBeFlagged` state this.
- A comment in `Analyze` mentions an "uploaded earlier" condition. The code
  does not check it, and neither does the model.
- Reports come back in bag order, not creation order.
- The storage service has no list-by-assignment endpoint.

## Model

| member | source | states |
|---|---|---|
| FileStorage.UploadWith | FileStorageService/Controllers/FileController.cs:22-45 | A missing or empty file is answered with FileIsEmpty, and the store is unchanged. Otherwise the answer is the chosen id. The bytes are written at that id's path, and every other path keeps its bytes. The id is then among the keys, and existing entries are never replaced, which is the `TryAdd` behaviour. A new id gets metadata holding the form's student, task and file name. |
| FileStorage.Extension | FileStorageService/Controllers/FileController.cs:26 | `Path.GetExtension`. A non-empty result is a suffix of the name of at least two characters. It starts with '.' and has no further '.' or '/'. An empty result means the name ends with '.', or every '.' in it is followed by a later '/'. |
| FileStorage.PathFor | FileStorageService/Controllers/FileController.cs:26 | The disk path of an upload is named by the new id and by the extension of the client's file name, as `Extension` specifies it. |
| FileStorage.DistinctIdsDistinctPaths | FileStorageService/Controllers/FileController.cs:26 | Two uploads share a disk path iff their ids are equal and their names have the same extension. The path text `uploads/<36-character id><extension>` is injective in that pair, and the model records the pair itself. |
| FileStorage.CollidingUploadOverwrites | FileStorageService/Controllers/FileController.cs:26-43 | An upload under an id already in use, with the same extension, keeps the old metadata. Its bytes replace the old file, or re-create it if it had gone from disk. Either way the id now downloads the new bytes under the old name. The lemma needs only that the entry's path was built from its id and name. |
| FileStorage.NewId | FileStorageService/Controllers/FileController.cs:25 | The chosen id is not among the ids in use. |
| FileStorage.Upload | FileStorageService/Controllers/FileController.cs:22-45 | An empty upload gives BadRequest and the same store. A non-empty upload succeeds with an id that was not in the map. It adds exactly that key and leaves every other entry unchanged. The new entry records the id, student, task and original name, and `GetFile` on the id returns the uploaded bytes. The resulting store is `UploadWith`'s for that id, so exactly one file is written and every other file keeps its bytes. |
| FileStorage.GetFile | FileStorageService/Controllers/FileController.cs:48-59 | The answer is FileNotFound iff the id is unknown. It is FileOnDiskMissing iff the metadata exists but its path is not on disk. Otherwise it returns the bytes at the path under the original name. |
| FileStorage.GetMeta | FileStorageService/Controllers/FileController.cs:63-67 | NotFound iff the id is not in the map. Otherwise it returns the stored metadata. |
| FileStorage.Handle | FileStorageService/Controllers/FileController.cs:19-67 | `GetFile` and `GetMeta` never change the store. A failed upload never changes it either. An upload leaves `UploadWith`'s store and succeeds iff the file is non-empty. It answers with the chosen id, or with FileIsEmpty when it fails. A file request answers exactly what `GetFile` answers, and a metadata request exactly what `GetMeta` answers, errors included. |
| FileStorage.HandlePreservesWellformed | FileStorageService/Controllers/FileController.cs:19-67 | Every request to the storage service keeps the store well formed. |
| FileStorage.EmptyStoreWellformed | FileStorageService/Controllers/FileController.cs:11-17 | At start-up the index is empty, while the upload directory may still hold files from an earlier run. Whatever the disk holds, that store satisfies the integrity invariant, and every download from it is FileNotFound. |
| FileStorage.UploadPreservesWellformed | FileStorageService/Controllers/FileController.cs:25-43 | Every upload preserves the invariant, even one whose id collides. The invariant: each entry sits under its own id, its path is built from that id and the extension of its name, and its bytes are on disk. |
| FileStorage.WellformedHasNoMissingFile | FileStorageService/Controllers/FileController.cs:51-58 | In a well-formed store, "File on disk missing" never occurs, and every known id downloads. |
| FileStorage.UploadThenGetFile | FileStorageService/Controllers/FileController.cs:28-58 | Round trip: after an upload under a fresh id, `GetFile` returns exactly the uploaded bytes and name. `GetMeta` returns metadata with that id, student, task and name. |
| FileStorage.UploadLeavesOthersAlone | FileStorageService/Controllers/FileController.cs:25-43 | Assume every entry's path is built from its own id; some entries' files may be missing from disk. Then a fresh upload grows the map by exactly one, and it changes no answer of `GetMeta` or `GetFile` for any other id, including "File on disk missing". |
| FileStorage.EmptyUploadChangesNothing | FileStorageService/Controllers/FileController.cs:22-23 | After a rejected upload, every `GetMeta` and `GetFile` answer is what it was before. |
| Analysis.Analyze | AnalysisService/Controllers/AnalysisController.cs:23-82 | An unreachable storage gives StorageUnavailable, a failed metadata fetch gives MetadataNotFound, and a failed content fetch gives ContentNotFound. The metadata is fetched first. On any failure the log is unchanged. Success happens iff both fetches succeed. Then exactly one report is added to the bag, and all earlier reports stay. The report carries the request's file id, the metadata's task and student, and the hash of the fetched bytes. Its flag is true iff an earlier report has the same task, the same hash and a different student. |
| Analysis.HasConflict | AnalysisService/Controllers/AnalysisController.cs:49-52 | The duplicate rule as a predicate over the bag: some earlier report has the same task, the same hash and a different student. `Analyze`'s flag is this predicate, and `AnyConflict` computes it. |
| Analysis.AnyConflict | AnalysisService/Controllers/AnalysisController.cs:49-52 | The enumeration of the bag stops at the first match. It returns true iff some report in the bag has the same task, the same hash and a different student. |
| Analysis.GetReports | AnalysisService/Controllers/AnalysisController.cs:85-89 | Each report of the given task appears exactly as many times as it is in the bag. Reports of other tasks never appear. No order is promised. |
| Analysis.GetReportsMembership | AnalysisService/Controllers/AnalysisController.cs:87 | A report is listed iff it is in the log and has the requested task. The list is never longer than the log. |
| Analysis.EmptyLogNeverFlags | AnalysisService/Controllers/AnalysisController.cs:49-52 | Against an empty log the flag is always false. |
| Analysis.SameStudentIrrelevant | AnalysisService/Controllers/AnalysisController.cs:49-52 | Adding a report by the submitting student never changes the verdict. |
| Analysis.OtherTaskIrrelevant | AnalysisService/Controllers/AnalysisController.cs:49-50 | Adding a report for a different task never changes the verdict. |
| Analysis.ResubmissionNotFlagged | AnalysisService/Controllers/AnalysisController.cs:49-52 | Suppose every earlier report of the task with this hash is by the submitter. Then the analysis succeeds and is not flagged. |
| Analysis.ConflictPersists | AnalysisService/Controllers/AnalysisController.cs:49-69 | A conflict present in the log stays present after any further `Analyze`, because reports are only added. |
| Analysis.EqualBytesEqualHash | AnalysisService/Controllers/AnalysisController.cs:91-96 | `ComputeMd5` is the environment's `md5`, a deterministic function that is otherwise unknown. Two analyses whose fetched bytes are equal give reports with equal hashes. |
| Analysis.SecondOfTwoIsFlagged | AnalysisService/Controllers/AnalysisController.cs:46-69 | Two students, byte-equal files, same task: the first analysed is clean and the second is flagged. |
| Pipeline.ToDto | AnalysisService/Controllers/AnalysisController.cs:36-37 | The deserialised metadata keeps the stored entry's student and task. |
| Pipeline.StorageEnv | AnalysisService/Controllers/AnalysisController.cs:33-43 | Fetches are answered by the store. The metadata fetch succeeds iff the id is stored, and it returns that entry's student and task. The content fetch succeeds iff `GetFile` does, and it returns `GetFile`'s bytes. Neither is ever unreachable. |
| Pipeline.UploadThenAnalyze | AnalysisService/Controllers/AnalysisController.cs:33-69 | A file just uploaded under a fresh id analyses successfully. The report carries the form's student and task and the hash of the uploaded bytes, and it is the one report added. |
| Pipeline.UnknownFileNotAnalysed | AnalysisService/Controllers/AnalysisController.cs:33-34 | An id the store never issued gives MetadataNotFound, and the log is unchanged. |
| Pipeline.MissingBytesNotAnalysed | AnalysisService/Controllers/AnalysisController.cs:40-41 | Metadata without bytes on disk gives ContentNotFound, and the log is unchanged. |
| Pipeline.VerdictIgnoresOtherFiles | AnalysisService/Controllers/AnalysisController.cs:49-52 | Two stores that agree on one file's metadata and bytes give the same analysis of it. Other stored files, analysed or not, never matter. |
| Pipeline.TwoSubmissionsVerdicts | AnalysisService/Controllers/AnalysisController.cs:46-69 | Two uploads with byte-equal content are each analysed right after upload. The first is clean. The second is flagged iff the tasks agree and the students differ. This covers Alice then Bob, resubmission and different tasks. |
| Pipeline.EarlierUploaderCanBeFlagged | AnalysisService/Controllers/AnalysisController.cs:48-52 | Upload dates are not consulted. If the later upload is analysed first, the earlier uploader is the one flagged. |

## Left out

- HTTP plumbing: routing, `IHttpClientFactory`, the storage URL, status codes and JSON. Each fetch is a function from id to `Fetched`, `ErrorStatus` or `Unreachable`.
- The 500 answer for any other exception, such as metadata that deserialises to null, or an `HttpClient` timeout (`TaskCanceledException`). It needs the JSON layer and a clock for timeouts, neither of which is modelled.
- Null `StudentName`/`TaskId` in the upload form: strings are never null here.
- MD5 and Base64: the hash is an uninterpreted function.
- `GenerateWordCloud` (UTF-8 decoding, truncation, URL escaping): the link is an arbitrary string.
- `Guid.NewGuid` and `DateTime.UtcNow`: they are parameters. The `Upload` method's id choice is one admissible fresh id.
- Real filesystem I/O (`FileStream`, `Directory.CreateDirectory`, `File.Exists`): the disk is a map from path to bytes. A path is the pair (id, extension) it is built from. `Path.Combine` with the fixed upload directory is left out, and so is the fixed-length text of the id, because that pair determines the path. Directory separators are those of Linux, `/` only. Writes always succeed in the model. In the service, the write at `FileStream` is not guarded. If it throws, for example because `<id><extension>` is longer than the file system allows, the answer is 500 and nothing is stored, while `UploadWith` succeeds.
- Thread safety of `ConcurrentBag`/`ConcurrentDictionary`: each request is one atomic step.
- Both `Program.cs` files: they are service wiring.

=== FILE: analysis.dfy ===
/** The analysis service: fetch a stored file and its metadata, hash the
    bytes, decide the plagiarism flag against the reports already produced,
    and append one report to the log. */
module Analysis {
  import opened Wrappers
  import opened Primitives

  datatype AnalysisRequest = AnalysisRequest(fileId: Guid)

  /** The part of the storage metadata the analysis reads. */
  datatype FileMetadataDto = FileMetadataDto(studentName: string, taskId: string)

  datatype AnalysisReport = AnalysisReport(
    reportId: Guid,
    fileId: Guid,
    taskId: string,
    studentName: string,
    fileHash: string,
    isPlagiarism: bool,
    wordCloudUrl: string,
    analyzedAt: Instant)

  /** The report store. It is a bag: reports are only ever added, and it
      promises no order when enumerated. */
  datatype ReportLog = ReportLog(reports: multiset<AnalysisReport>)

  const EmptyLog := ReportLog(multiset{})

  /** The outcome of one HTTP GET to the storage service: a success status
      with a body, a non-success status, or no answer at all
      (`HttpRequestException`). */
  datatype Fetch<+T> = Fetched(value: T) | ErrorStatus | Unreachable

  /** BadRequest("File metadata not found in Storage"),
      BadRequest("File content not found"), and 503 "File Storage Service is unavailable". */
  datatype AnalysisError = MetadataNotFound | ContentNotFound | StorageUnavailable

  /** Everything `Analyze` consults besides the log: the two storage
      endpoints, the content hash (MD5 rendered as Base64, left
      uninterpreted), the word-cloud link, and the values `Guid.NewGuid`
      and the clock supply. */
  datatype Env = Env(
    fetchMeta: Guid -> Fetch<FileMetadataDto>,
    fetchContent: Guid -> Fetch<seq<Byte>>,
    md5: seq<Byte> -> string,  // `ComputeMd5`: deterministic, otherwise unknown
    wordCloudUrl: string,
    reportId: Guid,
    now: Instant)

  datatype Step = Step(log: ReportLog, response: Result<AnalysisReport, AnalysisError>)

  /** The duplicate rule for one earlier report. */
  predicate Conflicts(earlier: AnalysisReport, taskId: string, fileHash: string, studentName: string)
  {
    && earlier.taskId == taskId
    && earlier.fileHash == fileHash
    && earlier.studentName != studentName
  }

  /** `_reports.Any(...)`: some earlier report conflicts. */
  predicate HasConflict(log: ReportLog, taskId: string, fileHash: string, studentName: string)
  {
    exists earlier :: earlier in log.reports && Conflicts(earlier, taskId, fileHash, studentName)
  }

  /** `_reports.Any(...)` as the enumeration it is: visit the bag's reports
      one at a time and stop at the first conflicting one. */
  method AnyConflict(log: ReportLog, taskId: string, fileHash: string, studentName: string) returns (found: bool)
    ensures found <==>
      exists p :: p in log.reports && p.taskId == taskId && p.fileHash == fileHash && p.studentName != studentName
    ensures found == HasConflict(log, taskId, fileHash, studentName)
  {
    var rest := log.reports;
    while rest != multiset{}
      invariant rest <= log.reports
      invariant forall p :: p in log.reports && p !in rest ==> !Conflicts(p, taskId, fileHash, studentName)
      decreases |rest|
    {
      var p :| p in rest;
      if Conflicts(p, taskId, fileHash, studentName) {
        return true;
      }
      rest := rest - multiset{p};
    }
    return false;
  }

  /** `Analyze`. Fetch failures answer with an error and append nothing. */
  function Analyze(log: ReportLog, req: AnalysisRequest, env: Env): (r: Step)
    ensures r.response.Failure? ==> r.log == log
    ensures env.fetchMeta(req.fileId).Unreachable? ==> r.response == Failure(StorageUnavailable)
    ensures env.fetchMeta(req.fileId).ErrorStatus? ==> r.response == Failure(MetadataNotFound)
    ensures env.fetchMeta(req.fileId).Fetched? && env.fetchContent(req.fileId).Unreachable? ==>
      r.response == Failure(StorageUnavailable)
    ensures env.fetchMeta(req.fileId).Fetched? && env.fetchContent(req.fileId).ErrorStatus? ==>
      r.response == Failure(ContentNotFound)
    ensures r.response.Success? <==>
      env.fetchMeta(req.fileId).Fetched? && env.fetchContent(req.fileId).Fetched?
    ensures r.response.Success? ==>
      var meta := env.fetchMeta(req.fileId).value;
      var bytes := env.fetchContent(req.fileId).value;
      var report := r.response.value;
      && r.log.reports == log.reports + multiset{report}
      && report.reportId == env.reportId
      && report.fileId == req.fileId
      && report.taskId == meta.taskId
      && report.studentName == meta.studentName
      && report.fileHash == env.md5(bytes)
      && report.wordCloudUrl == env.wordCloudUrl
      && report.analyzedAt == env.now
      && (report.isPlagiarism <==>
            exists p :: p in log.reports && p.taskId == meta.taskId
                        && p.fileHash == env.md5(bytes) && p.studentName != meta.studentName)
  {
    match env.fetchMeta(req.fileId)
    case Unreachable => Step(log, Failure(StorageUnavailable))
    case ErrorStatus => Step(log, Failure(MetadataNotFound))
    case Fetched(meta) =>
      match env.fetchContent(req.fileId)
      case Unreachable => Step(log, Failure(StorageUnavailable))
      case ErrorStatus => Step(log, Failure(ContentNotFound))
      case Fetched(bytes) =>
        var fileHash := env.md5(bytes);
        var isPlagiarism := HasConflict(log, meta.taskId, fileHash, meta.studentName);
        var report := AnalysisReport(env.reportId, req.fileId, meta.taskId, meta.studentName,
                                     fileHash, isPlagiarism, env.wordCloudUrl, env.now);
        Step(ReportLog(log.reports + multiset{report}), Success(report))
  }

  /** `GetReports`: the reports of one task, in whatever order the bag
      enumerates them. Each report appears exactly as often as in the log. */
  method GetReports(log: ReportLog, taskId: string) returns (rs: seq<AnalysisReport>)
    ensures forall x :: multiset(rs)[x] == if x.taskId == taskId then log.reports[x] else 0
  {
    rs := [];
    var rest := log.reports;
    while rest != multiset{}
      invariant rest <= log.reports
      invariant forall x :: multiset(rs)[x] == if x.taskId == taskId then log.reports[x] - rest[x] else 0
      decreases |rest|
    {
      var x :| x in rest;
      if x.taskId == taskId {
        rs := rs + [x];
      }
      rest := rest - multiset{x};
    }
  }

  /** What `GetReports` returns, element by element: a report is listed iff
      it is in the log and belongs to the task. */
  lemma GetReportsMembership(log: ReportLog, taskId: string, rs: seq<AnalysisReport>)
    requires forall x :: multiset(rs)[x] == if x.taskId == taskId then log.reports[x] else 0
    ensures forall x :: x in rs <==> x in log.reports && x.taskId == taskId
    ensures |rs| <= |log.reports|
  {
    forall x
      ensures x in rs <==> x in log.reports && x.taskId == taskId
    {
      assert x in rs <==> x in multiset(rs);
    }
    assert multiset(rs) <= log.reports;
    SubMultisetSize(multiset(rs), log.reports);
  }

  lemma SubMultisetSize<T>(a: multiset<T>, b: multiset<T>)
    requires a <= b
    ensures |a| <= |b|
  {
    assert b == a + (b - a);
  }

  /** Nothing is flagged against an empty log. */
  lemma EmptyLogNeverFlags(req: AnalysisRequest, env: Env)
    ensures var r := Analyze(EmptyLog, req, env);
      r.response.Success? ==> !r.response.value.isPlagiarism
  {
  }

  /** A report by the same student never raises the flag: adding one to the
      log leaves the verdict unchanged. */
  lemma SameStudentIrrelevant(log: ReportLog, p: AnalysisReport, taskId: string, fileHash: string, studentName: string)
    requires p.studentName == studentName
    ensures HasConflict(ReportLog(log.reports + multiset{p}), taskId, fileHash, studentName)
        <==> HasConflict(log, taskId, fileHash, studentName)
  {
  }

  /** A report for another task never raises the flag. */
  lemma OtherTaskIrrelevant(log: ReportLog, p: AnalysisReport, taskId: string, fileHash: string, studentName: string)
    requires p.taskId != taskId
    ensures HasConflict(ReportLog(log.reports + multiset{p}), taskId, fileHash, studentName)
        <==> HasConflict(log, taskId, fileHash, studentName)
  {
  }

  /** A log in which every report of the task with this hash is by the
      submitter (a resubmission) yields no flag. */
  lemma ResubmissionNotFlagged(log: ReportLog, req: AnalysisRequest, env: Env)
    requires env.fetchMeta(req.fileId).Fetched? && env.fetchContent(req.fileId).Fetched?
    requires forall p :: p in log.reports && p.taskId == env.fetchMeta(req.fileId).value.taskId
                && p.fileHash == env.md5(env.fetchContent(req.fileId).value)
                ==> p.studentName == env.fetchMeta(req.fileId).value.studentName
    ensures Analyze(log, req, env).response.Success?
    ensures !Analyze(log, req, env).response.value.isPlagiarism
  {
  }

  /** Once a conflicting report is in the log it stays: the verdict can only
      turn from clean to flagged as the log grows. */
  lemma ConflictPersists(log: ReportLog, req: AnalysisRequest, env: Env, taskId: string, fileHash: string, studentName: string)
    requires HasConflict(log, taskId, fileHash, studentName)
    ensures HasConflict(Analyze(log, req, env).log, taskId, fileHash, studentName)
  {
    var earlier :| earlier in log.reports && Conflicts(earlier, taskId, fileHash, studentName);
    assert earlier in Analyze(log, req, env).log.reports;
  }

  /** Byte-equal contents give equal fingerprints: two files whose downloads
      agree receive the same hash, whatever their ids and metadata. */
  lemma EqualBytesEqualHash(log1: ReportLog, log2: ReportLog, req1: AnalysisRequest, req2: AnalysisRequest, env: Env)
    requires env.fetchContent(req1.fileId).Fetched? && env.fetchContent(req2.fileId).Fetched?
    requires env.fetchContent(req1.fileId).value == env.fetchContent(req2.fileId).value
    requires Analyze(log1, req1, env).response.Success? && Analyze(log2, req2, env).response.Success?
    ensures Analyze(log1, req1, env).response.value.fileHash == Analyze(log2, req2, env).response.value.fileHash
  {
  }

  /** Two students submit byte-equal files to the same task. The first one
      analysed is clean against an empty log; the second is flagged. The
      verdict depends on the order of analysis, not of upload. */
  lemma SecondOfTwoIsFlagged(req1: AnalysisRequest, req2: AnalysisRequest, env1: Env, env2: Env)
    requires env1.md5 == env2.md5
    requires env1.fetchMeta(req1.fileId).Fetched? && env1.fetchContent(req1.fileId).Fetched?
    requires env2.fetchMeta(req2.fileId).Fetched? && env2.fetchContent(req2.fileId).Fetched?
    requires env1.fetchContent(req1.fileId).value == env2.fetchContent(req2.fileId).value
    requires env1.fetchMeta(req1.fileId).value.taskId == env2.fetchMeta(req2.fileId).value.taskId
    requires env1.fetchMeta(req1.fileId).value.studentName != env2.fetchMeta(req2.fileId).value.studentName
    ensures var first := Analyze(EmptyLog, req1, env1);
      && first.response.Success? && !first.response.value.isPlagiarism
      && Analyze(first.log, req2, env2).response.Success?
      && Analyze(first.log, req2, env2).response.value.isPlagiarism
  {
    var first := Analyze(EmptyLog, req1, env1);
    assert first.response.value in first.log.reports;
  }
}

=== FILE: file_storage.dfy ===
/** The file storage service: an index of metadata keyed by file id, and a
    disk holding the uploaded bytes. Every request is one atomic step from a
    store to a store and a response. */
module FileStorage {
  import opened Wrappers
  import opened Primitives

  /** The multipart form file: its client-side name and its bytes. */
  datatype FormFile = FormFile(fileName: string, content: seq<Byte>)

  /** The upload form. `file` is `None` when the form carried no file. */
  datatype UploadRequest = UploadRequest(studentName: string, taskId: string, file: Option<FormFile>)

  /** Where the bytes of an upload are written: `uploads/<id><extension>`.
      The directory is fixed and the id's text has a fixed length, so the
      path is determined by, and determines, the pair (id, extension). */
  datatype DiskPath = DiskPath(id: Guid, extension: string)

  datatype FileMetadata = FileMetadata(
    id: Guid,
    studentName: string,
    taskId: string,
    originalName: string,
    filePath: DiskPath,
    uploadedAt: Instant)

  /** `db` is the in-memory metadata index, `disk` the upload directory. */
  datatype Store = Store(db: map<Guid, FileMetadata>, disk: map<DiskPath, seq<Byte>>)

  /** The controller's error answers: BadRequest("File is empty"),
      NotFound("File not found") / NotFound(), and NotFound("File on disk missing"). */
  datatype StorageError = FileIsEmpty | FileNotFound | FileOnDiskMissing

  /** What a successful download returns: the bytes and the download name. */
  datatype Download = Download(bytes: seq<Byte>, downloadName: string)

  /** A request answered by the store, with the store it leaves behind. */
  datatype Step<+T> = Step(store: Store, response: Result<T, StorageError>)

  /** True iff `c` separates directories on the Linux host the service runs on. */
  predicate IsDirectorySeparator(c: char)
  {
    c == '/'
  }

  /** What `Path.GetExtension` promises: a non-empty result is the suffix
      from a '.' with no further '.' or separator after it, and an empty
      result means the name ends with '.', or every '.' lies before a
      separator. */
  ghost predicate IsExtensionOf(ext: string, name: string)
  {
    && (ext != "" ==>
      && 2 <= |ext| <= |name|
      && ext == name[|name| - |ext|..]
      && ext[0] == '.'
      && (forall j :: 1 <= j < |ext| ==> ext[j] != '.' && !IsDirectorySeparator(ext[j])))
    && (ext == "" ==>
      || (|name| > 0 && name[|name| - 1] == '.')
      || (forall j :: 0 <= j < |name| && name[j] == '.' ==>
            exists k :: j < k < |name| && IsDirectorySeparator(name[k])))
  }

  /** `Path.GetExtension`: the suffix from the last '.' of the last path
      segment, or "" when that segment has no '.' or ends with one. */
  function Extension(name: string): (ext: string)
    ensures IsExtensionOf(ext, name)
  {
    ExtensionScan(name, |name|)
  }

  /** Scan `name` backwards from position `i`, as `GetExtension` does; no '.'
      or separator occurs at or after `i`. */
  function ExtensionScan(name: string, i: nat): (ext: string)
    requires i <= |name|
    requires forall j :: i <= j < |name| ==> name[j] != '.' && !IsDirectorySeparator(name[j])
    ensures IsExtensionOf(ext, name)
    decreases i
  {
    if i == 0 then ""
    else if name[i - 1] == '.' then
      if i == |name| then "" else name[i - 1..]
    else if IsDirectorySeparator(name[i - 1]) then ""
    else ExtensionScan(name, i - 1)
  }

  /** The path an upload under `id` is written to: the id followed by the
      extension of the client's file name. */
  function PathFor(id: Guid, fileName: string): (p: DiskPath)
    ensures p.id == id && IsExtensionOf(p.extension, fileName)
  {
    DiskPath(id, Extension(fileName))
  }

  /** Uploads under different ids never share a disk path, whatever the names.
      In the service the path is the text `uploads/<id><extension>`, where the
      id's text always has 36 characters; that text is injective in the pair
      (id, extension), which is what `DiskPath` records, so this lemma is the
      injectivity of the real path carried over to the pair. */
  lemma DistinctIdsDistinctPaths(a: Guid, b: Guid, nameA: string, nameB: string)
    ensures PathFor(a, nameA) == PathFor(b, nameB) <==> a == b && Extension(nameA) == Extension(nameB)
  {
  }

  /** True iff the upload carries no file or an empty one. */
  predicate IsEmptyUpload(req: UploadRequest)
  {
    req.file.None? || |req.file.value.content| == 0
  }

  /** Upload with the id that `Guid.NewGuid` produced. The bytes are written
      (overwriting any file at that path) before the metadata is offered to
      `TryAdd`, which keeps an existing entry under the same id. */
  function UploadWith(s: Store, req: UploadRequest, id: Guid, now: Instant): (r: Step<Guid>)
    ensures IsEmptyUpload(req) <==> r.response.Failure?
    ensures r.response.Failure? ==> r.response.error == FileIsEmpty && r.store == s
    ensures r.response.Success? ==>
      var f := req.file.value;
      && r.response.value == id
      && r.store.disk.Keys == s.disk.Keys + {PathFor(id, f.fileName)}
      && r.store.disk[PathFor(id, f.fileName)] == f.content
      && (forall p :: p in s.disk && p != PathFor(id, f.fileName) ==> r.store.disk[p] == s.disk[p])
      && r.store.db.Keys == s.db.Keys + {id}
      && (forall k :: k in s.db ==> r.store.db[k] == s.db[k])
      && (id !in s.db ==>
            r.store.db[id] == FileMetadata(id, req.studentName, req.taskId, f.fileName, PathFor(id, f.fileName), now))
  {
    if IsEmptyUpload(req) then
      Step(s, Failure(FileIsEmpty))
    else
      var f := req.file.value;
      var path := PathFor(id, f.fileName);
      var disk := s.disk[path := f.content];
      var meta := FileMetadata(id, req.studentName, req.taskId, f.fileName, path, now);
      var db := if id in s.db then s.db else s.db[id := meta];
      Step(Store(db, disk), Success(id))
  }

  /** An id that no entry of `keys` uses: one past the largest. This is the
      one property of `Guid.NewGuid` the store relies on. */
  method NewId(keys: set<Guid>) returns (id: Guid)
    ensures id !in keys
  {
    id := 0;
    var rest := keys;
    while rest != {}
      invariant rest <= keys
      invariant forall k :: k in keys && k !in rest ==> k < id
      decreases rest
    {
      var k :| k in rest;
      if id <= k {
        id := k + 1;
      }
      rest := rest - {k};
    }
  }

  /** `Upload`: reject an empty file, otherwise store it under a fresh id. */
  method Upload(s: Store, req: UploadRequest, now: Instant) returns (r: Step<Guid>)
    ensures IsEmptyUpload(req) ==> r == Step(s, Failure(FileIsEmpty))
    ensures !IsEmptyUpload(req) ==>
      && r.response.Success?
      && r.response.value !in s.db
      && r.store.db.Keys == s.db.Keys + {r.response.value}
      && (forall k :: k in s.db ==> r.store.db[k] == s.db[k])
      && r.store.db[r.response.value].id == r.response.value
      && r.store.db[r.response.value].studentName == req.studentName
      && r.store.db[r.response.value].taskId == req.taskId
      && r.store.db[r.response.value].originalName == req.file.value.fileName
      && GetFile(r.store, r.response.value) == Success(Download(req.file.value.content, req.file.value.fileName))
      && r.store == UploadWith(s, req, r.response.value, now).store
  {
    var id := NewId(s.db.Keys);
    r := UploadWith(s, req, id, now);
    if !IsEmptyUpload(req) {
      UploadThenGetFile(s, req, id, now);
    }
  }

  /** `GetFile`: the two `NotFound` causes are told apart. */
  function GetFile(s: Store, id: Guid): (r: Result<Download, StorageError>)
    ensures r == Failure(FileNotFound) <==> id !in s.db
    ensures r == Failure(FileOnDiskMissing) <==> id in s.db && s.db[id].filePath !in s.disk
    ensures r.Success? <==> id in s.db && s.db[id].filePath in s.disk
    ensures r.Success? ==>
      r.value.bytes == s.disk[s.db[id].filePath] && r.value.downloadName == s.db[id].originalName
  {
    if id !in s.db then Failure(FileNotFound)
    else
      var meta := s.db[id];
      if meta.filePath !in s.disk then Failure(FileOnDiskMissing)
      else Success(Download(s.disk[meta.filePath], meta.originalName))
  }

  /** `GetMeta`: the stored metadata, or NotFound for an unknown id. */
  function GetMeta(s: Store, id: Guid): (r: Result<FileMetadata, StorageError>)
    ensures r.Failure? <==> id !in s.db
    ensures r.Failure? ==> r.error == FileNotFound
    ensures r.Success? ==> r.value == s.db[id]
  {
    if id in s.db then Success(s.db[id]) else Failure(FileNotFound)
  }

  /** The three endpoints as one transition of the store. */
  datatype Request = UploadFile(upload: UploadRequest) | FetchFile(fileId: Guid) | FetchMeta(metaId: Guid)

  datatype Answer = Uploaded(newId: Guid) | FileBody(download: Download) | Metadata(meta: FileMetadata)

  /** Handle one request; `id` and `now` are what `Guid.NewGuid` and the
      clock would return if the request is an upload. */
  function Handle(s: Store, req: Request, id: Guid, now: Instant): (r: Step<Answer>)
    ensures !req.UploadFile? ==> r.store == s
    ensures r.response.Failure? ==> r.store == s
    ensures req.UploadFile? ==> r.store == UploadWith(s, req.upload, id, now).store
    ensures req.UploadFile? ==> (r.response.Success? <==> !IsEmptyUpload(req.upload))
    ensures req.UploadFile? && r.response.Success? ==> r.response.value == Uploaded(id)
    ensures req.UploadFile? && r.response.Failure? ==> r.response.error == FileIsEmpty
    ensures req.FetchFile? ==>
      && (r.response.Success? <==> GetFile(s, req.fileId).Success?)
      && (r.response.Success? ==> r.response.value == FileBody(GetFile(s, req.fileId).value))
      && (r.response.Failure? ==> r.response.error == GetFile(s, req.fileId).error)
    ensures req.FetchMeta? ==>
      && (r.response.Success? <==> GetMeta(s, req.metaId).Success?)
      && (r.response.Success? ==> r.response.value == Metadata(GetMeta(s, req.metaId).value))
      && (r.response.Failure? ==> r.response.error == FileNotFound)
  {
    match req
    case UploadFile(u) =>
      var step := UploadWith(s, u, id, now);
      Step(step.store, if step.response.Success? then Success(Uploaded(id)) else Failure(step.response.error))
    case FetchFile(f) =>
      var g := GetFile(s, f);
      Step(s, if g.Success? then Success(FileBody(g.value)) else Failure(g.error))
    case FetchMeta(m) =>
      var g := GetMeta(s, m);
      Step(s, if g.Success? then Success(Metadata(g.value)) else Failure(g.error))
  }

  /** The store's integrity: every entry sits under its own id, and its
      bytes are on disk at the path built from that id and its name. */
  ghost predicate Wellformed(s: Store)
  {
    forall k :: k in s.db ==>
      && s.db[k].id == k
      && s.db[k].filePath == PathFor(k, s.db[k].originalName)
      && s.db[k].filePath in s.disk
  }

  /** Every request, whatever it is, keeps the store well formed. */
  lemma HandlePreservesWellformed(s: Store, req: Request, id: Guid, now: Instant)
    requires Wellformed(s)
    ensures Wellformed(Handle(s, req, id, now).store)
  {
    if req.UploadFile? {
      UploadPreservesWellformed(s, req.upload, id, now);
    }
  }

  /** At start-up the index is empty, but the upload directory may still hold
      files from an earlier run: whatever `disk` holds, the store is well
      formed and every download is FileNotFound. */
  lemma EmptyStoreWellformed(disk: map<DiskPath, seq<Byte>>)
    ensures Wellformed(Store(map[], disk))
    ensures forall id :: GetFile(Store(map[], disk), id) == Failure(FileNotFound)
  {
  }

  /** Every upload keeps the store well formed, even one whose id collides. */
  lemma UploadPreservesWellformed(s: Store, req: UploadRequest, id: Guid, now: Instant)
    requires Wellformed(s)
    ensures Wellformed(UploadWith(s, req, id, now).store)
  {
  }

  /** In a well-formed store the only download failure is an unknown id. */
  lemma WellformedHasNoMissingFile(s: Store, id: Guid)
    requires Wellformed(s)
    ensures GetFile(s, id) != Failure(FileOnDiskMissing)
    ensures id in s.db ==> GetFile(s, id).Success?
  {
  }

  /** Round trip: downloading a freshly uploaded file returns its bytes under
      its original name, and its metadata records the form's fields. */
  lemma UploadThenGetFile(s: Store, req: UploadRequest, id: Guid, now: Instant)
    requires id !in s.db
    requires !IsEmptyUpload(req)
    ensures var s' := UploadWith(s, req, id, now).store;
      && GetFile(s', id) == Success(Download(req.file.value.content, req.file.value.fileName))
      && GetMeta(s', id).Success?
      && GetMeta(s', id).value.id == id
      && GetMeta(s', id).value.studentName == req.studentName
      && GetMeta(s', id).value.taskId == req.taskId
      && GetMeta(s', id).value.originalName == req.file.value.fileName
  {
    var s' := UploadWith(s, req, id, now).store;
    assert s'.db[id].filePath == PathFor(id, req.file.value.fileName);
  }

  /** A fresh upload adds exactly one entry and changes no other answer of
      `GetFile` or `GetMeta`, also for entries whose bytes are gone from disk.
      All it needs is that each entry's path is built from its own id. */
  lemma UploadLeavesOthersAlone(s: Store, req: UploadRequest, id: Guid, now: Instant, other: Guid)
    requires forall k :: k in s.db ==> s.db[k].filePath.id == k
    requires id !in s.db
    requires !IsEmptyUpload(req)
    requires other != id
    ensures |UploadWith(s, req, id, now).store.db| == |s.db| + 1
    ensures GetMeta(UploadWith(s, req, id, now).store, other) == GetMeta(s, other)
    ensures GetFile(UploadWith(s, req, id, now).store, other) == GetFile(s, other)
  {
    var s' := UploadWith(s, req, id, now).store;
    assert s'.db.Keys == s.db.Keys + {id};
  }

  /** An upload whose id is already taken (a `Guid` collision) keeps the old
      metadata, but when the extensions agree its bytes overwrite the old
      file, or re-create it if it had gone: the entry now downloads the new
      bytes under the old name. */
  lemma CollidingUploadOverwrites(s: Store, req: UploadRequest, id: Guid, now: Instant)
    requires id in s.db
    requires s.db[id].filePath == PathFor(id, s.db[id].originalName)
    requires !IsEmptyUpload(req)
    requires Extension(req.file.value.fileName) == Extension(s.db[id].originalName)
    ensures var s' := UploadWith(s, req, id, now).store;
      && GetMeta(s', id) == GetMeta(s, id)
      && GetFile(s', id) == Success(Download(req.file.value.content, s.db[id].originalName))
  {
  }

  /** A rejected upload changes nothing any later request can observe. */
  lemma EmptyUploadChangesNothing(s: Store, req: UploadRequest, id: Guid, now: Instant, q: Guid)
    requires IsEmptyUpload(req)
    ensures GetMeta(UploadWith(s, req, id, now).store, q) == GetMeta(s, q)
    ensures GetFile(UploadWith(s, req, id, now).store, q) == GetFile(s, q)
  {
  }
}

=== FILE: pipeline.dfy ===
/** The two services wired together: the analysis fetches metadata and
    content from the storage service's `GetMeta` and `GetFile`, and any
    non-success answer of those endpoints reaches it as an error status. */
module Pipeline {
  import opened Wrappers
  import opened Primitives
  import opened FileStorage
  import opened Analysis

  /** The JSON the analysis deserialises from `GetMeta` keeps only the
      student and the task. */
  function ToDto(meta: FileMetadata): (dto: FileMetadataDto)
    ensures dto.studentName == meta.studentName && dto.taskId == meta.taskId
  {
    FileMetadataDto(meta.studentName, meta.taskId)
  }

  /** The analysis environment whose fetches are answered by store `s`. */
  function StorageEnv(s: Store, md5: seq<Byte> -> string, wordCloudUrl: string, reportId: Guid, now: Instant): (env: Env)
    ensures forall id :: env.fetchMeta(id).Fetched? <==> id in s.db
    ensures forall id :: id in s.db ==> env.fetchMeta(id) == Fetched(ToDto(s.db[id]))
    ensures forall id :: env.fetchContent(id).Fetched? <==> GetFile(s, id).Success?
    ensures forall id :: GetFile(s, id).Success? ==> env.fetchContent(id) == Fetched(GetFile(s, id).value.bytes)
    ensures forall id :: !env.fetchMeta(id).Unreachable? && !env.fetchContent(id).Unreachable?
    ensures env.md5 == md5 && env.wordCloudUrl == wordCloudUrl && env.reportId == reportId && env.now == now
  {
    Env(
      (id: Guid) => if GetMeta(s, id).Success? then Fetched(ToDto(GetMeta(s, id).value)) else ErrorStatus,
      (id: Guid) => if GetFile(s, id).Success? then Fetched(GetFile(s, id).value.bytes) else ErrorStatus,
      md5, wordCloudUrl, reportId, now)
  }

  /** The values one analysis takes from outside: the word-cloud link, the
      new report's id and the clock. The verdict reads none of them. */
  datatype Stamp = Stamp(wordCloudUrl: string, reportId: Guid, now: Instant)

  /** Analyse stored file `id` against `log`. */
  function AnalyzeStored(log: ReportLog, s: Store, id: Guid, md5: seq<Byte> -> string, st: Stamp): (r: Analysis.Step)
  {
    Analyze(log, AnalysisRequest(id), StorageEnv(s, md5, st.wordCloudUrl, st.reportId, st.now))
  }

  /** A file just uploaded can be analysed at once: the report carries the
      form's student and task and the hash of the uploaded bytes, and it is
      the one report added to the log. */
  lemma UploadThenAnalyze(s: Store, up: UploadRequest, id: Guid, now: Instant, log: ReportLog, md5: seq<Byte> -> string, st: Stamp)
    requires id !in s.db
    requires !IsEmptyUpload(up)
    ensures var r := AnalyzeStored(log, UploadWith(s, up, id, now).store, id, md5, st);
      && r.response.Success?
      && r.response.value.fileId == id
      && r.response.value.studentName == up.studentName
      && r.response.value.taskId == up.taskId
      && r.response.value.fileHash == md5(up.file.value.content)
      && r.log.reports == log.reports + multiset{r.response.value}
  {
    UploadThenGetFile(s, up, id, now);
  }

  /** An id the store never issued is rejected, and the log is unchanged. */
  lemma UnknownFileNotAnalysed(log: ReportLog, s: Store, id: Guid, md5: seq<Byte> -> string, st: Stamp)
    requires id !in s.db
    ensures AnalyzeStored(log, s, id, md5, st) == Analysis.Step(log, Failure(MetadataNotFound))
  {
  }

  /** Metadata whose bytes have vanished from disk is told apart from an
      unknown id: the content fetch fails, and the log is unchanged. */
  lemma MissingBytesNotAnalysed(log: ReportLog, s: Store, id: Guid, md5: seq<Byte> -> string, st: Stamp)
    requires id in s.db && s.db[id].filePath !in s.disk
    ensures AnalyzeStored(log, s, id, md5, st) == Analysis.Step(log, Failure(ContentNotFound))
  {
  }

  /** The verdict reads only the file's own metadata and bytes and the report
      log: other stored files, analysed or not, play no part. */
  lemma VerdictIgnoresOtherFiles(log: ReportLog, s1: Store, s2: Store, id: Guid, md5: seq<Byte> -> string, st: Stamp)
    requires GetMeta(s1, id) == GetMeta(s2, id)
    requires GetFile(s1, id) == GetFile(s2, id)
    ensures AnalyzeStored(log, s1, id, md5, st) == AnalyzeStored(log, s2, id, md5, st)
  {
  }

  /** Two uploads to one task with byte-equal content, each analysed right
      after its upload. */
  function TwoSubmissions(s0: Store, first: UploadRequest, second: UploadRequest, a: Guid, b: Guid,
                          t1: Instant, t2: Instant, md5: seq<Byte> -> string, st1: Stamp, st2: Stamp)
    : (steps: (Analysis.Step, Analysis.Step))
  {
    var s1 := UploadWith(s0, first, a, t1).store;
    var r1 := AnalyzeStored(EmptyLog, s1, a, md5, st1);
    var s2 := UploadWith(s1, second, b, t2).store;
    (r1, AnalyzeStored(r1.log, s2, b, md5, st2))
  }

  /** Alice uploads and is analysed, then Bob uploads the same bytes to the
      same task and is analysed: Alice is clean, Bob is flagged. If Bob is
      Alice again (a resubmission), or the tasks differ, nobody is flagged. */
  lemma TwoSubmissionsVerdicts(s0: Store, first: UploadRequest, second: UploadRequest, a: Guid, b: Guid,
                               t1: Instant, t2: Instant, md5: seq<Byte> -> string, st1: Stamp, st2: Stamp)
    requires a !in s0.db && b !in s0.db && a != b
    requires !IsEmptyUpload(first) && !IsEmptyUpload(second)
    requires first.file.value.content == second.file.value.content
    ensures var (r1, r2) := TwoSubmissions(s0, first, second, a, b, t1, t2, md5, st1, st2);
      && r1.response.Success? && !r1.response.value.isPlagiarism
      && r2.response.Success?
      && (r2.response.value.isPlagiarism <==>
            first.taskId == second.taskId && first.studentName != second.studentName)
  {
    var s1 := UploadWith(s0, first, a, t1).store;
    UploadThenAnalyze(s0, first, a, t1, EmptyLog, md5, st1);
    var r1 := AnalyzeStored(EmptyLog, s1, a, md5, st1);
    UploadThenAnalyze(s1, second, b, t2, r1.log, md5, st2);
    assert r1.log.reports == multiset{r1.response.value};
    assert r1.response.value in r1.log.reports;
  }

  /** No upload date is consulted. If the later upload is analysed first,
      the earlier uploader is the one flagged. */
  lemma EarlierUploaderCanBeFlagged(s0: Store, first: UploadRequest, second: UploadRequest,
                                    a: Guid, b: Guid, t1: Instant, t2: Instant, md5: seq<Byte> -> string,
                                    st1: Stamp, st2: Stamp)
    requires a !in s0.db && b !in s0.db && a != b
    requires t1 < t2
    requires !IsEmptyUpload(first) && !IsEmptyUpload(second)
    requires first.file.value.content == second.file.value.content
    requires first.taskId == second.taskId && first.studentName != second.studentName
    ensures var s2 := UploadWith(UploadWith(s0, first, a, t1).store, second, b, t2).store;
      var rb := AnalyzeStored(EmptyLog, s2, b, md5, st1);
      var ra := AnalyzeStored(rb.log, s2, a, md5, st2);
      && s2.db[a].uploadedAt < s2.db[b].uploadedAt
      && rb.response.Success? && !rb.response.value.isPlagiarism
      && ra.response.Success? && ra.response.value.isPlagiarism
  {
    var s1 := UploadWith(s0, first, a, t1).store;
    var s2 := UploadWith(s1, second, b, t2).store;
    UploadThenAnalyze(s1, second, b, t2, EmptyLog, md5, st1);
    var rb := AnalyzeStored(EmptyLog, s2, b, md5, st1);
    UploadThenGetFile(s0, first, a, t1);
    assert s2.db[a] == s1.db[a];
    DistinctIdsDistinctPaths(a, b, first.file.value.fileName, second.file.value.fileName);
    assert GetFile(s2, a) == GetFile(s1, a);
    assert rb.response.value in rb.log.reports;
  }
}

=== FILE: primitives.dfy ===
/** Optional values and request outcomes, shared by both services. */
module Wrappers {

  /** A value that may be absent (C#'s `null`). */
  datatype Option<+T> = None | Some(value: T)

  /** The outcome of a request: a value, or the error the controller answers with. */
  datatype Result<+T, +E> = Success(value: T) | Failure(error: E)
}

/** Value types the two services exchange. */
module Primitives {

  /** One octet of file content. */
  newtype Byte = b: int | 0 <= b < 256

  /** A file or report identifier. The services only ever compare identifiers
      for equality and ask for one not yet in use, so the 128 bits of a .NET
      `Guid` are abstracted to a natural number. */
  type Guid = nat

  /** A `DateTime.UtcNow` reading. No rule of the core inspects it. */
  type Instant = int
}
